=== FILE: README.md ===
# pasteboard2, modelled in Dafny

pasteboard2 is a small command-line accessor for the macOS pasteboard
(clipboard). It clears the board, writes text to it, lists the content types
on it and reads text from it. This project models its deterministic core:

- the pasteboard, as an ordered sequence of `(type, data)` entries with
  unique types, reached through the few primitives the program calls
  (`Pasteboard`, board.dfy);
- the accessor functions `clear_pb`, `set_content`, `is_empty`, `get_types`,
  `get_types_str` and `get_content` (`Accessor`, accessor.dfy). The program
  carries three near-identical copies of them. The model states them once;
- the lazily cached pasteboard handle of `get_pasteboard` (`HandleCache`);
- the `Exportable` decorator that builds `__all__` (`Exportable`);
- the test helpers `save_clipboard_state` / `resurrect_clipboard_state` and
  the session fixture built on them (`ClipboardState`);
- the `clear`, `types` and `clip` commands, as functions from the board and
  the `-t` option to the text printed (`Cli`). A `Variant` records how the
  copies differ: the package's `__main__.py` defaults `clip`'s type to
  `None` and has an empty-board message for `types`. The two script copies
  default to `PLAIN_TEXT_UTF8` and have no such message;
- the test assertions, over every starting board (`AccessorTests`);
- `bump_version` of the release script (`Mkdist`), with the version-string
  parser and printer it relies on (`Strings` holds `str.split`).

Writes are pure functions returning the board after the call, and the
foreign `NSPasteboard.generalPasteboard()` is a parameter of
`get_pasteboard`. A setter stores new data in place when its type is
already on the board, and otherwise appends the type.

`get_content` returns `None` for a stored empty string
(pasteboard2/pasteboard2.py:129-130), so the write-then-read round trip
holds for non-empty strings only (`Accessor.SetThenGet`,
`Accessor.SetEmptyThenGet`). For the same reason, a board whose requested
type holds `""` is reported by `clip` as holding an unknown type, not as
empty (`Cli.EmptyTextIsUnknown`).

## Model

| member | source | states |
|---|---|---|
| Pasteboard.SetData | pasteboard2.py:111-113 | `setData_forType_` stores the data under its type, keeps every other type's data, keeps the board free of duplicate types, and appends the type only when it was not already listed |
| Pasteboard.Types | pasteboard2/pasteboard2.py:96 | `types()` lists one type per entry, in the order the entries are on the board |
| Pasteboard.DataFor | tests/test_pasteboard2.py:12 | `dataForType_(t)` yields nothing exactly when `t` is not among the board's types, and otherwise yields the data of an entry whose type is `t` |
| Pasteboard.ClearContents | pasteboard2/pasteboard2.py:71 | `clearContents` leaves a board with no types |
| Pasteboard.StringFor | pasteboard2/pasteboard2.py:129 | `stringForType_` yields text only when the type holds text, and that text is exactly what is stored |
| Pasteboard.DataForEntry | tests/test_pasteboard2.py:12 | on a board without duplicate types, `dataForType_` of an entry's type gives that entry's data |
| Pasteboard.BoardExt | tests/test_pasteboard2.py:6-23 | a board is fully determined by its type order and the data under each type, which is why saving those two suffices to restore it |
| Accessor.ClearPb | pasteboard2/pasteboard2.py:63-71 | after `clear_pb` the board is empty and no type yields any data |
| Accessor.SetContent | pasteboard2/pasteboard2.py:34-47 | `set_content(c, t)` leaves exactly one entry, the text `c` under `t`; every other type yields nothing |
| Accessor.IsEmpty | pasteboard2/pasteboard2.py:74-82 | `is_empty` holds exactly when the type list is empty |
| Accessor.GetTypes | pasteboard2/pasteboard2.py:85-96 | `get_types` returns the board's types as a list, one per entry, in board order |
| Accessor.GetTypesStr | pasteboard2/pasteboard2.py:99-112 | the listing is the empty string exactly when the board is empty |
| Accessor.BulletList | pasteboard2/pasteboard2.py:112 | `"".join([f"- {x}\n" for x in types])` is empty exactly when there are no types (its content is pinned by the listing lemmas below) |
| Accessor.LookupType | pasteboard2/pasteboard2.py:128 | `t or PLAIN_TEXT_UTF8`: `None` and `""` both mean the default text type, any other string means itself |
| Accessor.GetContent | pasteboard2/pasteboard2.py:115-130 | a value is returned exactly when non-empty text is stored under the looked-up type, and it is that text; absent types, non-text data and `""` all give `None` |
| Accessor.ClearIdempotent | pasteboard2/pasteboard2.py:71 | clearing twice equals clearing once, and both give the empty board |
| Accessor.EmptyIffNoTypes | pasteboard2/pasteboard2.py:74-112 | `is_empty()` iff `get_types() == []` iff `get_types_str() == ""` |
| Accessor.SetThenGet | pasteboard2/pasteboard2.py:46-47 | after `set_content(c, t)` with non-empty `c` and non-empty `t`, `get_content(t)` is `c` and `get_types()` is `[t]` |
| Accessor.SetThenGetDefault | src/pasteboard2/pasteboard2.py:86-88 | after `set_content(c)` with non-empty `c`, `get_content()` with no type gives `c` back |
| Accessor.SetEmptyThenGet | pasteboard2/pasteboard2.py:129-130 | writing `""` leaves a type on the board, yet `get_content` reports `None` |
| Accessor.SetEmptyTypeThenGet | pasteboard2/pasteboard2.py:128-130 | after `set_content(c, "")` the board lists only `""`, yet `get_content("")` is `None`, because `t or PLAIN_TEXT_UTF8` reads the default type, which the write removed |
| Accessor.SetDestroysOthers | src/pasteboard2/pasteboard2.py:20-21 | after writing under `t`, content written earlier under any other type reads as `None` |
| Accessor.BulletListAppend | pasteboard2/pasteboard2.py:112 | the listing of a concatenation of type lists is the concatenation of their listings |
| Accessor.BulletListNewlines | pasteboard2/pasteboard2.py:111-112 | the listing's newline count is the number of types plus the newlines inside the type names |
| Accessor.ListingLineCount | src/pasteboard2/pasteboard2.py:70-71 | for single-line type names the listing has exactly one newline per type |
| Accessor.ParseBulletLine | src/pasteboard2/pasteboard2.py:71 | a listing that starts with the line of `t` reads back as `t` followed by the reading of the rest |
| Accessor.ParseBulletListRoundTrip | pasteboard2/pasteboard2.py:111-112 | single-line type names are recovered from their listing, in order, so the listing shows every type, in board order |
| Accessor.ParseBulletListSound | pasteboard2/__main__.py:52 | every string read as a listing is exactly the listing of the types read from it |
| Accessor.ListingExample | pasteboard2/pasteboard2.py:112 | the types `["A", "B"]` are listed as `"- A\n- B\n"` |
| HandleCache.GetPasteboard | pasteboard2/pasteboard2.py:50-60 | the first call returns and caches the newly created handle; later calls return the cached handle and leave the cache unchanged |
| HandleCache.CallsMemoised | pasteboard2.py:28-30 | over any run of calls every call returns the same handle, the first one created, and the cache holds it afterwards |
| HandleCache.CachedCallUnchanged | src/pasteboard2/pasteboard2.py:28-30 | a call after the first returns the same handle and cache as the first |
| Exportable.Register | pasteboard2/pasteboard2.py:19-26 | a call appends exactly one name, the callable's `__name__` or else the given name, and returns the object unchanged; a non-callable without a name raises `ValueError` and leaves the list as it was |
| Exportable.RegisterAll | pasteboard2/pasteboard2.py:16-26 | decorating definitions in turn succeeds exactly when each one can be named; a failure is `ValueError`; a success adds one name per definition and keeps the names already listed |
| Exportable.RegisterAllAppends | pasteboard2/pasteboard2.py:16-26 | decorating nameable definitions in turn appends their names in declaration order |
| Exportable.RegisterAllFails | pasteboard2/pasteboard2.py:23-24 | a definition that cannot be named makes the sequence of decorations raise `ValueError` |
| Exportable.ModuleAll | pasteboard2/pasteboard2.py:29-133 | `__all__` starts empty and ends as the eight names in declaration order, from `PLAIN_TEXT_UTF8` to `get_content` |
| Exportable.PlainTextConstant | pasteboard2/pasteboard2.py:31 | decorating the constant returns `"public.utf8-plain-text"` unchanged |
| ClipboardState.Save | tests/test_pasteboard2.py:6-12 | the saved dict has one key per type on the board, in board order, holding that type's data |
| ClipboardState.Resurrect | tests/test_pasteboard2.py:15-23 | restoring a saved dict leaves exactly its types, in its insertion order, each with its saved data, whatever was on the board before |
| ClipboardState.SaveAndRestore | tests/test_pasteboard2.py:29-33 | saving at the start and restoring at the end gives back the very board the tests found, whatever they wrote in between |
| Cli.Clear | pasteboard2/__main__.py:18-24 | the `clear` command leaves the board empty, with an empty listing |
| Cli.Echo | pasteboard2/__main__.py:33 | on a terminal, `typer.echo` writes its argument followed by exactly one newline |
| Cli.TypesCommand | pasteboard2/__main__.py:26-33 | `types` prints the fallback message exactly when the copy has one and the board is empty; otherwise it prints the type listing |
| Cli.ClearThenTypes | pasteboard2.py:219-225 | after `clear`, `types` prints an empty line in the script copies and the fallback message in the package copy |
| Cli.TypesLists | pasteboard2/__main__.py:32-33 | when `types` does not print the fallback message, its output without the final newline reads back as the board's types in order |
| Cli.Decide | pasteboard2/__main__.py:45-51 | `clip` takes exactly one of three branches in order: content found, else board empty, else unknown type; the unknown-type branch has a non-empty type list, so `types[0]` is in bounds |
| Cli.ClipType | pasteboard2/__main__.py:38-40 | `clip` asks for the `-t` option when it is given and otherwise for the copy's default: `None` in the package, `PLAIN_TEXT_UTF8` in the scripts (pasteboard2.py:230-231) |
| Cli.Clip | pasteboard2/__main__.py:35-61 | an empty board prints "No content"; found content prints `clipboard contains: '<content>'` and then the type listing; otherwise the unknown-type message for the board's types is printed |
| Cli.UnknownMessageLayout | pasteboard2/__main__.py:51-56 | the unknown-type message opens with its heading and lists every type on the board right after it |
| Cli.UnknownMessageEnding | pasteboard2/__main__.py:59-60 | the unknown-type message closes with the `clip -t` command for the first listed type |
| Cli.PluralHeading | pasteboard2/__main__.py:55 | the heading says "types" exactly when more than one type is listed |
| Cli.SuggestsFirstType | pasteboard2/__main__.py:51-59 | the unknown-type message ends with the `clip -t` command for the first listed type |
| Cli.DefaultsAgree | pasteboard2.py:230-231 | with no `-t`, the `None` default and the `PLAIN_TEXT_UTF8` default take the same branch, both looking up `PLAIN_TEXT_UTF8` |
| Cli.DefaultOutputsAgree | pasteboard2/__main__.py:38-45 | copies differing only in the form of that default print the same for `clip` without `-t` |
| Cli.EmptyTextIsUnknown | pasteboard2/__main__.py:45-51 | a requested type holding `""` leads to the unknown-type branch, not to "No content" |
| Cli.FreshBoardNoContent | src/pasteboard2/pasteboard2.py:151-155 | on an empty board `clip` prints "No content" whatever type it is asked for |
| Cli.HelloWorld | pasteboard2.py:237-239 | after `set_content("Hello, World!")`, `clip` without `-t` prints `clipboard contains: 'Hello, World!'` and then the one-line listing of the default text type |
| Cli.OtherTypeRequested | src/pasteboard2/pasteboard2.py:156-167 | a board holding only `x`, asked for another type, takes the unknown-type branch with `[x]` as its type list and prints that message |
| Cli.SingleTypeMessage | src/pasteboard2/pasteboard2.py:159-166 | for one type `x` the message has the singular heading, the single line `- x` and the suggestion `clip -t x` |
| AccessorTests.EmptyAtStart | tests/test_pasteboard2.py:39-54 | after the per-test clear the board is empty, with no types and an empty listing |
| AccessorTests.SetContentThenGet | tests/test_pasteboard2.py:57-61 | `set_content("Hello, World!")` then `get_content()` gives `"Hello, World!"` |
| AccessorTests.ClearAgain | tests/test_pasteboard2.py:64-68 | clearing an already cleared board leaves it empty, with no content |
| AccessorTests.SetThenClear | tests/test_pasteboard2.py:71-77 | clearing after a write gives an empty board |
| AccessorTests.SetThenTypes | tests/test_pasteboard2.py:80-89 | after a write with the default type, `PLAIN_TEXT_UTF8` is among the types |
| Strings.Split | mkdist.py:78 | `split(".")` gives one more piece than there are dots, and no piece holds a dot |
| Strings.SplitJoin | mkdist.py:78 | splitting dot-free pieces joined with dots gives the pieces back |
| Strings.JoinSplit | mkdist.py:78 | joining the pieces of a split with the separator gives back the original string |
| Mkdist.Decimal | mkdist.py:89 | `str(n)` is a non-empty digit string with no leading zero whose value is `n` |
| Mkdist.DecimalUnique | mkdist.py:89 | every digit string without a leading zero is `str` of its own value, so `str` has exactly one output per number |
| Mkdist.ParseNat | mkdist.py:78 | `int(field)`, restricted to ASCII digit strings: it succeeds exactly on a non-empty digit string and gives its decimal value |
| Mkdist.ParseNatDecimal | mkdist.py:78-89 | `int(str(n)) == n` |
| Mkdist.ParseVersion | mkdist.py:78 | parsing succeeds exactly when the string splits on dots into three digit fields, and then gives the values of those fields in order; otherwise it raises `ValueError` |
| Mkdist.Format | mkdist.py:89 | the printed version splits on dots into exactly three numerals without leading zeros, whose values are the major, minor and patch numbers |
| Mkdist.FormatUnique | mkdist.py:89 | the printed version is the only such string, so for instance `"1.2.04"` is not the printing of `(1, 2, 4)` |
| Mkdist.FormatRoundTrip | mkdist.py:78-89 | printing a version as `major.minor.patch` and parsing it gives the same version |
| Mkdist.BumpVersion | mkdist.py:63-89 | `bump_version` fails exactly when its input does not parse; otherwise its output is the printing of the bumped version |
| Mkdist.BumpLevel | mkdist.py:80-87 | the major number is bumped exactly when bit 4 is set; the minor number exactly when bit 2 is set and bit 4 is not; the patch number exactly when bit 1 is the only one of the three set; nothing otherwise |
| Mkdist.BitComplement | mkdist.py:80-86 | `bump_flags & 2**k` reads negative flags as two's complement: bit `k` of `-f - 1` is the complement of bit `k` of `f` |
| Mkdist.NegativeFlags | mkdist.py:80-86 | `-5 & 4 == 0`, `-4 & 4 == 4`, and flags `-8` select no field |
| Mkdist.Bump | mkdist.py:80-87 | with no selected field the version is unchanged; otherwise the selected field goes up by one, the fields above it stay, and the fields below it restart at zero |
| Mkdist.DefaultBumpsPatch | mkdist.py:86-87 | the default flags `1` map `(M, m, p)` to `(M, m, p+1)` |
| Mkdist.MajorWins | mkdist.py:80-82 | with bit 4 set the result is `(M+1, 0, 0)`, whatever other bits are set |
| Mkdist.MinorOverPatch | mkdist.py:83-85 | with bit 2 set and bit 4 clear the result is `(M, m+1, 0)` |
| Mkdist.UnselectedFlags | mkdist.py:78-89 | flags 0 and 8 leave the version unchanged; flags -1 bump the major number, as Python's `&` on negative ints gives |
| Mkdist.BumpIncreases | mkdist.py:80-87 | the result is strictly greater in `(major, minor, patch)` order exactly when one of bits 1, 2, 4 is set, and equal otherwise |
| Mkdist.BumpIsLeast | mkdist.py:80-87 | the result is the least version whose fields down to the selected one exceed the input's, so the lower fields restart at zero as Semantic Versioning 2.0.0 items 7 and 8 require |
| Mkdist.BumpVersionExample | mkdist.py:63-89 | `"1.2.3"` with the default flags becomes `"1.2.4"`, and `"1.2"` raises `ValueError` |

## Left out

- The macOS `NSPasteboard` itself: change counts, changes made by other
  processes, and the rules by which non-text data could be decoded as a
  string. Data is either text or bytes, and only text reads as a string.
- Cli.Echo: models the output written to an interactive terminal. When
  standard output is not a terminal, `typer.echo` (click's `echo`) strips
  ANSI colour and style codes, which the model does not do. Every command's
  output goes through `Echo`.
- The `typer` plumbing: command registration, option parsing, `Main` and
  `main()`. Each command's output is a returned string, with `typer.echo`'s
  trailing newline.
- The leading whitespace inside the triple-quoted unknown-type message, and
  the line break the copy in pasteboard2.py places after "get," rather than
  before "with". The model uses the wording of pasteboard2/__main__.py
  without indentation.
- The `test` command (pasteboard2.py:202-217 and
  src/pasteboard2/pasteboard2.py:115-131). It runs pytest and doctest and
  computes file paths. The doctests' `isinstance` checks hold by typing.
- The `version` command. It is not part of this model.
- The rest of mkdist.py: `delete_dir`, `setup_dist_dir`, `build`,
  `get_pypi_version`, `set_version_in_pyproject` and `main`. These are
  filesystem, `runpy` and HTTP I/O, and include `main`'s path that passes
  `None` into `bump_version`.
- Mkdist.ParseNat: Python's `int()` also accepts signs, surrounding
  whitespace and underscores (`" 7"`, `"+7"`, `"7_0"`). The model accepts
  only non-empty strings of ASCII digits.
- Mkdist.BumpVersion: inherits that restriction, so an input such as
  `" 1.2.3"`, which Python bumps to `"1.2.4"`, fails in the model.
- Mkdist.ParseVersion: Python's `int()` also accepts signs, surrounding
  whitespace and underscores. The model accepts only non-empty strings of
  ASCII digits.
- Mkdist.ParseNat: Dafny's `int` has no conversion limit, while CPython
  (3.10.7 and later) by default raises `ValueError` when `int()` is given
  a numeral of more than 4300 digits; `PYTHONINTMAXSTRDIGITS` changes the
  limit. The model accepts digit strings of any length.
- Mkdist.ParseVersion: for the same reason, a field of more than 4300
  digits raises `ValueError` in CPython by default but parses in the model.
- Mkdist.BumpVersion: fails in the model only when its input does not
  parse. CPython by default also raises `ValueError` when a field has more
  than 4300 digits, or when the bumped number printed by the f-string
  would (for instance `"9" * 4300 + ".0.0"` with flags 4).
- Mkdist.Decimal: `str(n)` and f-string output raise `ValueError` in
  CPython by default past 4300 digits; the model prints every number.
- Mkdist.Format: inherits that limit from `Mkdist.Decimal`; the model
  prints every version.
- `callable()` and `Path(__file__).name`: a decorated object is either
  `Callable(name)` or a `Value`, and the program name is a constant of each
  variant.
- Cli.TypesLists: assumes type names contain no newline, since a name
  holding one cannot be told apart from two listed names.
- Accessor.ListingLineCount: assumes type names contain no newline. With
  newlines in the names, Accessor.BulletListNewlines gives the exact count.
- ClipboardState.Save: assumes the board never lists a type twice, as
  every board built by the modelled operations satisfies.

=== FILE: accessor.dfy ===
/** The clipboard accessor of pasteboard2/pasteboard2.py: clearing, writing
    text, listing types and reading text, over the abstract board. The
    copies in pasteboard2.py and src/pasteboard2/pasteboard2.py have the
    same function bodies; they differ in their docstrings and in that only
    pasteboard2/pasteboard2.py decorates the functions with `@exportable`
    and defines `PLAIN_TEXT_UTF8` through that registry. Each function
    takes the board the cached handle refers to and, when it writes,
    returns the board after the call. */
module Accessor {
  import opened Wrappers
  import opened Pasteboard
  import Strings

  /** The default text type. */
  const PLAIN_TEXT_UTF8: ContentType := "public.utf8-plain-text"

  /** `clear_pb()`. */
  function ClearPb(b: Board): (r: Board)
    ensures Valid(r)
    ensures IsEmpty(r)
    ensures forall t :: DataFor(r, t).None?
  {
    ClearContents(b)
  }

  /** `set_content(content, for_type)`: clears, then writes, so the board
      ends holding the new text alone. */
  function SetContent(b: Board, content: string, forType: ContentType): (r: Board)
    ensures Valid(r)
    ensures r.entries == [Entry(forType, Text(content))]
    ensures GetTypes(r) == [forType]
    ensures DataFor(r, forType) == Some(Text(content))
    ensures forall u :: u != forType ==> DataFor(r, u).None?
  {
    SetData(ClearPb(b), Text(content), forType)
  }

  /** `is_empty()`: the board advertises no type. */
  function IsEmpty(b: Board): (r: bool)
    ensures r <==> GetTypes(b) == []
    ensures r <==> b.entries == []
  {
    |Types(b)| == 0
  }

  /** `get_types()`: a copy of the advertised types, in board order. */
  function GetTypes(b: Board): (ts: seq<ContentType>)
    ensures |ts| == |b.entries|
    ensures forall i :: 0 <= i < |ts| ==> ts[i] == b.entries[i].kind
  {
    Types(b)
  }

  /** One line of a type listing: `f"- {x}\n"`. */
  function Bullet(t: ContentType): string
  {
    "- " + t + "\n"
  }

  /** `"".join([f"- {x}\n" for x in types])`. */
  function BulletList(ts: seq<ContentType>): (s: string)
    ensures s == [] <==> ts == []
  {
    if ts == [] then "" else Bullet(ts[0]) + BulletList(ts[1..])
  }

  /** `get_types_str()`. */
  function GetTypesStr(b: Board): (s: string)
    ensures s == "" <==> IsEmpty(b)
  {
    BulletList(GetTypes(b))
  }

  /** The type `get_content` looks up: `t or PLAIN_TEXT_UTF8`, so both
      `None` and `""` mean the default text type. */
  function LookupType(t: Option<ContentType>): (k: ContentType)
    ensures k != ""
    ensures t.Some? && t.value != "" ==> k == t.value
    ensures t == None || t == Some("") ==> k == PLAIN_TEXT_UTF8
  {
    match t
    case Some(s) => if s != "" then s else PLAIN_TEXT_UTF8
    case None => PLAIN_TEXT_UTF8
  }

  /** The board holds non-empty text under `k`. */
  predicate HoldsText(b: Board, k: ContentType)
  {
    match DataFor(b, k)
    case Some(Text(s)) => s != ""
    case _ => false
  }

  /** `get_content(t)`: the text under the looked-up type when it is a
      non-empty string; `None` when the type is absent, its data is not
      text, or the text is empty. */
  function GetContent(b: Board, t: Option<ContentType>): (r: Option<string>)
    ensures r.Some? <==> HoldsText(b, LookupType(t))
    ensures r.Some? ==> r.value != "" && DataFor(b, LookupType(t)) == Some(Text(r.value))
  {
    match StringFor(b, LookupType(t))
    case Some(s) => if s != "" then Some(s) else None
    case None => None
  }

  // ---------------------------------------------------------------------
  // Properties of the accessor

  /** Clearing twice is clearing once. */
  lemma ClearIdempotent(b: Board)
    ensures ClearPb(ClearPb(b)) == ClearPb(b)
    ensures ClearPb(b) == Empty
  {
  }

  /** An empty board, no types and an empty listing are the same thing. */
  lemma EmptyIffNoTypes(b: Board)
    ensures IsEmpty(b) <==> GetTypes(b) == []
    ensures GetTypes(b) == [] <==> GetTypesStr(b) == ""
  {
  }

  /** After `set_content(c, t)` with non-empty `c`, reading `t` gives `c`
      back and `t` is the only type. */
  lemma SetThenGet(b: Board, c: string, t: ContentType)
    requires c != ""
    requires t != ""
    ensures GetContent(SetContent(b, c, t), Some(t)) == Some(c)
    ensures GetTypes(SetContent(b, c, t)) == [t]
  {
    assert LookupType(Some(t)) == t;
  }

  /** With the default type the round trip needs no type argument. */
  lemma SetThenGetDefault(b: Board, c: string)
    requires c != ""
    ensures GetContent(SetContent(b, c, PLAIN_TEXT_UTF8), None) == Some(c)
  {
  }

  /** Writing the empty string leaves a type on the board but nothing
      `get_content` reports. */
  lemma SetEmptyThenGet(b: Board, t: ContentType)
    ensures GetContent(SetContent(b, "", t), Some(t)) == None
    ensures !IsEmpty(SetContent(b, "", t))
  {
  }

  /** Writing under the empty type name and then asking for the empty
      type reads the default type instead (`t or PLAIN_TEXT_UTF8`), which
      the write has just removed. */
  lemma SetEmptyTypeThenGet(b: Board, c: string)
    ensures GetContent(SetContent(b, c, ""), Some("")) == None
    ensures GetTypes(SetContent(b, c, "")) == [""]
  {
  }

  /** `set_content` destroys what was stored under every other type. */
  lemma SetDestroysOthers(b: Board, vA: string, a: ContentType, vB: string, t: ContentType)
    requires LookupType(Some(a)) != t
    ensures GetContent(SetContent(SetContent(b, vA, a), vB, t), Some(a)) == None
  {
  }

  // ---------------------------------------------------------------------
  // The type listing

  /** The listing of a concatenation is the concatenation of listings. */
  lemma {:induction false} BulletListAppend(xs: seq<ContentType>, ys: seq<ContentType>)
    ensures BulletList(xs + ys) == BulletList(xs) + BulletList(ys)
    decreases |xs|
  {
    if xs == [] {
      assert xs + ys == ys;
    } else {
      assert (xs + ys)[1..] == xs[1..] + ys;
      BulletListAppend(xs[1..], ys);
    }
  }

  /** Newlines inside the type names, summed over the list. */
  function NewlinesIn(ts: seq<ContentType>): nat
  {
    if ts == [] then 0 else Strings.Count(ts[0], '\n') + NewlinesIn(ts[1..])
  }

  /** Each type contributes its own newlines plus the one ending its line. */
  lemma {:induction false} BulletListNewlines(ts: seq<ContentType>)
    ensures Strings.Count(BulletList(ts), '\n') == |ts| + NewlinesIn(ts)
    decreases |ts|
  {
    if ts != [] {
      var t := ts[0];
      BulletListNewlines(ts[1..]);
      Strings.CountAppend(Bullet(t), BulletList(ts[1..]), '\n');
      Strings.CountAppend("- " + t, "\n", '\n');
      Strings.CountAppend("- ", t, '\n');
    }
  }

  /** No type name holds a line break. */
  predicate SingleLine(ts: seq<ContentType>)
  {
    forall i :: 0 <= i < |ts| ==> '\n' !in ts[i]
  }

  /** For single-line type names, the listing has one line per type. */
  lemma {:induction false} ListingLineCount(b: Board)
    requires SingleLine(GetTypes(b))
    ensures Strings.Count(GetTypesStr(b), '\n') == |GetTypes(b)|
  {
    BulletListNewlines(GetTypes(b));
    NoNewlines(GetTypes(b));
  }

  /** Single-line type names contribute no newlines of their own. */
  lemma {:induction false} NoNewlines(ts: seq<ContentType>)
    requires SingleLine(ts)
    ensures NewlinesIn(ts) == 0
    decreases |ts|
  {
    if ts != [] {
      NoNewlines(ts[1..]);
    }
  }

  /** Reads a listing back into its types: each line must be `"- "`, a
      name, and a newline. */
  function ParseBulletList(s: string): (r: Option<seq<ContentType>>)
    decreases |s|
  {
    if s == [] then Some([])
    else if |s| < 2 || s[..2] != "- " then None
    else match Strings.IndexOf(s[2..], '\n')
      case None => None
      case Some(k) =>
        match ParseBulletList(s[2 + k + 1..])
        case None => None
        case Some(rest) => Some([s[2..2 + k]] + rest)
  }

  /** Parsing a listing that starts with the line of `t` yields `t` and
      then whatever the rest of the listing yields. */
  lemma ParseBulletLine(t: ContentType, rest: string)
    requires '\n' !in t
    ensures ParseBulletList(Bullet(t) + rest) ==
      match ParseBulletList(rest)
      case None => None
      case Some(ts) => Some([t] + ts)
  {
    var s := Bullet(t) + rest;
    assert s[..2] == "- ";
    assert s[2..] == t + "\n" + rest;
    Strings.IndexOfAfter(t, '\n', rest);
    assert s[2 + |t| + 1..] == rest;
    assert s[2..2 + |t|] == t;
  }

  /** The listing loses nothing: single-line types are recovered from it,
      in order. */
  lemma {:induction false} ParseBulletListRoundTrip(ts: seq<ContentType>)
    requires SingleLine(ts)
    ensures ParseBulletList(BulletList(ts)) == Some(ts)
    decreases |ts|
  {
    if ts != [] {
      ParseBulletListRoundTrip(ts[1..]);
      ParseBulletLine(ts[0], BulletList(ts[1..]));
      assert ts == [ts[0]] + ts[1..];
    }
  }

  /** Where the first line of an accepted listing ends. */
  function FirstLineEnd(s: string): (k: nat)
    requires s != [] && ParseBulletList(s).Some?
    ensures 2 + k + 1 <= |s|
  {
    Strings.IndexOf(s[2..], '\n').value
  }

  /** A listing the parser accepts starts with the line of the first type
      it reads, and the rest of it reads as the remaining types. */
  lemma ParseBulletListFirst(s: string)
    requires s != [] && ParseBulletList(s).Some?
    ensures var k := FirstLineEnd(s);
      && '\n' !in s[2..2 + k]
      && s == Bullet(s[2..2 + k]) + s[2 + k + 1..]
      && ParseBulletList(s[2 + k + 1..]).Some?
      && ParseBulletList(s) == Some([s[2..2 + k]] + ParseBulletList(s[2 + k + 1..]).value)
  {
    var k := FirstLineEnd(s);
    assert s[2..][..k] == s[2..2 + k];
    assert s == s[..2] + s[2..2 + k] + "\n" + s[2 + k + 1..];
  }

  /** Every string the parser accepts is the listing of what it returns. */
  lemma {:induction false} ParseBulletListSound(s: string)
    requires ParseBulletList(s).Some?
    ensures BulletList(ParseBulletList(s).value) == s
    ensures SingleLine(ParseBulletList(s).value)
    decreases |s|
  {
    if s != [] {
      ParseBulletListFirst(s);
      var k := FirstLineEnd(s);
      var rest := s[2 + k + 1..];
      ParseBulletListSound(rest);
      var ts := ParseBulletList(s).value;
      assert ts[0] == s[2..2 + k] && ts[1..] == ParseBulletList(rest).value;
    }
  }

  /** The documented example: two types give two bullet lines. */
  lemma ListingExample()
    ensures BulletList(["A", "B"]) == "- A\n- B\n"
  {
  }
}

=== FILE: accessor_tests.dfy ===
/** The assertions of tests/test_pasteboard2.py (and of the in-file tests
    of pasteboard2.py), each over every board the tests could start from.
    The per-test fixture `assert_clear` clears the board first, so every
    test begins from `ClearPb(b)`. */
module AccessorTests {
  import opened Wrappers
  import opened Pasteboard
  import opened Accessor

  const Hello: string := "Hello, World!"

  /** `test_pasteboard_empty_at_start`, `..._types_empty_at_start` and
      `..._types_str_empty_at_start`. */
  lemma EmptyAtStart(b: Board)
    ensures IsEmpty(ClearPb(b))
    ensures GetTypes(ClearPb(b)) == []
    ensures GetTypesStr(ClearPb(b)) == ""
  {
  }

  /** `test_pasteboard_set_content`. */
  lemma SetContentThenGet(b: Board)
    ensures GetContent(SetContent(ClearPb(b), Hello, PLAIN_TEXT_UTF8), None) == Some(Hello)
  {
  }

  /** `test_pasteboard_get_nonexistent_content`: clearing a cleared board. */
  lemma ClearAgain(b: Board)
    ensures IsEmpty(ClearPb(ClearPb(b)))
    ensures GetContent(ClearPb(ClearPb(b)), None) == None
  {
  }

  /** `test_pasteboard_clear_content`. */
  lemma SetThenClear(b: Board)
    ensures IsEmpty(ClearPb(SetContent(ClearPb(b), Hello, PLAIN_TEXT_UTF8)))
  {
  }

  /** `test_get_pasteboard_types`. */
  lemma SetThenTypes(b: Board)
    ensures PLAIN_TEXT_UTF8 in GetTypes(SetContent(ClearPb(b), Hello, PLAIN_TEXT_UTF8))
  {
  }
}

=== FILE: board.dfy ===
/** The operating system's pasteboard, seen only through the primitives the
    accessor calls on its `NSPasteboard` handle: `clearContents`, `types`,
    `stringForType_`, `dataForType_` and `setData_forType_` (of which
    `setString_forType_` is the text case). The board is an ordered sequence
    of entries, one per content type. */
module Pasteboard {
  import opened Wrappers

  /** A content-type identifier such as "public.utf8-plain-text". */
  type ContentType = string

  /** What is stored under one type: text the board can hand back as a
      string, or data it cannot. */
  datatype Data = Text(text: string) | Binary(bytes: seq<bv8>)

  datatype Entry = Entry(kind: ContentType, data: Data)

  datatype Board = Board(entries: seq<Entry>)

  /** A board never advertises the same type twice. */
  ghost predicate Valid(b: Board) {
    forall i, j :: 0 <= i < j < |b.entries| ==> b.entries[i].kind != b.entries[j].kind
  }

  /** The empty board. */
  const Empty: Board := Board([])

  /** `types()`: the advertised types, in board order. */
  function Types(b: Board): (ts: seq<ContentType>)
    ensures |ts| == |b.entries|
    ensures forall i :: 0 <= i < |ts| ==> ts[i] == b.entries[i].kind
  {
    seq(|b.entries|, i requires 0 <= i < |b.entries| => b.entries[i].kind)
  }

  /** Position of the first entry carrying type `t`. */
  function Find(es: seq<Entry>, t: ContentType): (r: Option<nat>)
    ensures r.None? ==> forall j :: 0 <= j < |es| ==> es[j].kind != t
    ensures r.Some? ==> r.value < |es| && es[r.value].kind == t
    ensures r.Some? ==> forall j :: 0 <= j < r.value ==> es[j].kind != t
  {
    if es == [] then None
    else if es[0].kind == t then Some(0)
    else match Find(es[1..], t)
      case None => None
      case Some(i) => Some(i + 1)
  }

  /** `dataForType_(t)`: the data stored under `t`, if any. */
  function DataFor(b: Board, t: ContentType): (r: Option<Data>)
    ensures r.None? <==> t !in Types(b)
    ensures r.Some? ==> exists i :: 0 <= i < |b.entries| && b.entries[i] == Entry(t, r.value)
  {
    match Find(b.entries, t)
    case None => None
    case Some(i) => assert Types(b)[i] == t; Some(b.entries[i].data)
  }

  /** On a valid board the data under a type is the data of the one entry
      that carries that type. */
  lemma DataForEntry(b: Board, i: nat)
    requires Valid(b)
    requires i < |b.entries|
    ensures DataFor(b, b.entries[i].kind) == Some(b.entries[i].data)
  {
    var t := b.entries[i].kind;
    assert Types(b)[i] == t;
    var j :| 0 <= j < |b.entries| && b.entries[j] == Entry(t, DataFor(b, t).value);
    assert j == i;
  }

  /** `stringForType_(t)`: the text stored under `t`; `None` when the type is
      absent or its data is not text. */
  function StringFor(b: Board, t: ContentType): (r: Option<string>)
    ensures r.Some? ==> DataFor(b, t) == Some(Text(r.value))
    ensures r.None? ==> forall s :: DataFor(b, t) != Some(Text(s))
  {
    match DataFor(b, t)
    case Some(Text(s)) => Some(s)
    case _ => None
  }

  /** `clearContents()`: every entry removed. */
  function ClearContents(b: Board): (r: Board)
    ensures Valid(r) && Types(r) == []
  {
    Empty
  }

  /** `setData_forType_(d, t)`: stores `d` under `t`. An entry already
      carrying `t` keeps its position and gets the new data; otherwise the
      type is advertised after the existing ones. */
  function SetData(b: Board, d: Data, t: ContentType): (r: Board)
    requires Valid(b)
    ensures Valid(r)
    ensures DataFor(r, t) == Some(d)
    ensures forall u :: u != t ==> DataFor(r, u) == DataFor(b, u)
    ensures t in Types(b) ==> Types(r) == Types(b)
    ensures t !in Types(b) ==> Types(r) == Types(b) + [t]
  {
    match Find(b.entries, t)
    case Some(i) =>
      var r := Board(b.entries[i := Entry(t, d)]);
      assert Types(r) == Types(b);
      DataForEntry(r, i);
      assert forall j :: 0 <= j < |b.entries| ==> (b.entries[j].kind == t <==> j == i);
      SetDataOthers(b, r, t);
      r
    case None =>
      var r := Board(b.entries + [Entry(t, d)]);
      assert Types(r) == Types(b) + [t];
      DataForEntry(r, |b.entries|);
      SetDataOthers(b, r, t);
      r
  }

  /** Entries of types other than `t` are found at the same place with the
      same data, so their lookups agree. */
  lemma SetDataOthers(b: Board, r: Board, t: ContentType)
    requires |b.entries| <= |r.entries|
    requires forall j :: 0 <= j < |r.entries| ==>
      if j < |b.entries| && b.entries[j].kind != t then r.entries[j] == b.entries[j]
      else r.entries[j].kind == t
    ensures forall u :: u != t ==> DataFor(r, u) == DataFor(b, u)
  {
    forall u | u != t
      ensures DataFor(r, u) == DataFor(b, u)
    {
      FindAgrees(b.entries, r.entries, t, u);
    }
  }

  /** Two entry lists that agree wherever either carries a type other than
      `t` find every such type at the same place. */
  lemma FindAgrees(bs: seq<Entry>, rs: seq<Entry>, t: ContentType, u: ContentType)
    requires u != t
    requires |bs| <= |rs|
    requires forall j :: 0 <= j < |rs| ==>
      if j < |bs| && bs[j].kind != t then rs[j] == bs[j] else rs[j].kind == t
    ensures Find(bs, u) == Find(rs, u)
  {
    var fb, fr := Find(bs, u), Find(rs, u);
    if fb.Some? {
      var j := fb.value;
      assert rs[j] == bs[j];
    }
    if fr.Some? {
      var j := fr.value;
      assert j < |bs| && bs[j] == rs[j];
    }
  }

  /** A valid board is determined by its type order and its lookups. */
  lemma BoardExt(a: Board, b: Board)
    requires Valid(a) && Valid(b)
    requires Types(a) == Types(b)
    requires forall t :: DataFor(a, t) == DataFor(b, t)
    ensures a == b
  {
    forall i | 0 <= i < |a.entries|
      ensures a.entries[i] == b.entries[i]
    {
      assert Types(a)[i] == Types(b)[i];
      DataForEntry(a, i);
      DataForEntry(b, i);
    }
  }
}

=== FILE: cli.dfy ===
/** The command-line commands `clear`, `types` and `clip`, as functions
    from the board (and the `-t` option) to the text they write to
    standard output. The program has three copies of these commands, in
    pasteboard2/__main__.py, pasteboard2.py and
    src/pasteboard2/pasteboard2.py. Their bodies differ in the `clip`
    default, the `types` fallback and the program name, which a `Variant`
    carries; in where pasteboard2.py breaks the lines of the unknown-type
    message, which the model does not follow; and in the extra `test`
    command of the two script copies, which is not modelled. */
module Cli {
  import opened Wrappers
  import opened Pasteboard
  import opened Accessor
  import Strings

  /** What distinguishes one copy of the commands from another. */
  datatype Variant = Variant(
    program: string,                  // `PGM`, the entry file's name
    clipDefault: Option<ContentType>, // default of `clip --type/-t`
    typesFallback: bool)              // `types` prints a message for an empty board

  /** pasteboard2/__main__.py. */
  const PackageMain: Variant := Variant("__main__.py", None, true)

  /** The commands under `if __name__ == "__main__"` in pasteboard2.py and
      src/pasteboard2/pasteboard2.py. */
  const Script: Variant := Variant("pasteboard2.py", Some(PLAIN_TEXT_UTF8), false)

  /** `typer.echo(s)`: the text followed by a newline. */
  function Echo(s: string): (out: string)
    ensures |out| == |s| + 1 && out[..|s|] == s && out[|s|] == '\n'
  {
    s + "\n"
  }

  /** The `clear` command: no output; the board ends empty. */
  function Clear(b: Board): (r: Board)
    ensures IsEmpty(r)
    ensures GetTypesStr(r) == ""
  {
    ClearPb(b)
  }

  const EmptyTypesMessage: string := "clipboard empty, hence no types"

  /** The `types` command: the fallback message exactly when the copy has
      one and the board is empty, otherwise the type listing. */
  function TypesCommand(v: Variant, b: Board): (out: string)
    ensures out == Echo(EmptyTypesMessage) <==> v.typesFallback && IsEmpty(b)
    ensures !(v.typesFallback && IsEmpty(b)) ==> out == Echo(GetTypesStr(b))
  {
    var s := GetTypesStr(b);
    if v.typesFallback && s == "" then Echo(EmptyTypesMessage)
    else
      ListingIsNotMessage(GetTypes(b));
      EchoInjective(s, EmptyTypesMessage);
      Echo(s)
  }

  /** Different texts echo differently. */
  lemma EchoInjective(s: string, t: string)
    requires s != t
    ensures Echo(s) != Echo(t)
  {
    if |s| == |t| {
      var i :| 0 <= i < |s| && s[i] != t[i];
      assert Echo(s)[i] != Echo(t)[i];
    }
  }

  /** A listing is never the fallback message: it is empty or starts with
      a bullet. */
  lemma ListingIsNotMessage(ts: seq<ContentType>)
    ensures BulletList(ts) != EmptyTypesMessage
  {
    if ts != [] {
      assert BulletList(ts)[0] == '-';
    }
  }

  /** Which of its three branches `clip` takes. */
  datatype ClipOutcome =
    | Found(content: string)               // the requested type holds text
    | NoContent                            // the board is empty
    | UnknownType(types: seq<ContentType>) // the board holds something else

  /** `clip`'s decision for the type it was asked for (`None` when the
      option defaulted to `None`). The branches are tried in order:
      content first, then emptiness. */
  function Decide(b: Board, clipType: Option<ContentType>): (o: ClipOutcome)
    ensures o.Found? <==> GetContent(b, clipType).Some?
    ensures o.Found? ==> GetContent(b, clipType) == Some(o.content) && o.content != ""
    ensures o.NoContent? <==> GetContent(b, clipType).None? && IsEmpty(b)
    ensures o.UnknownType? <==> GetContent(b, clipType).None? && !IsEmpty(b)
    ensures o.UnknownType? ==> o.types == GetTypes(b) && |o.types| > 0
  {
    match GetContent(b, clipType)
    case Some(content) => Found(content)
    case None => if IsEmpty(b) then NoContent else UnknownType(GetTypes(b))
  }

  /** The plural suffix of the unknown-type heading. */
  function Plural(n: nat): string
  {
    if n > 1 then "s" else ""
  }

  /** The unknown-type message, without the indentation of the source's
      triple-quoted literal. `types[0]` is the suggested type, so the list
      must not be empty. */
  function UnknownMessage(program: string, types: seq<ContentType>): string
    requires |types| > 0
  {
    "\nUnknown content type" + Plural(|types|) + ":\n"
    + BulletList(types) + "\n"
    + "Call `" + program + " clip -t TYPE`\n"
    + "with the type of content you want to get, e.g.:\n"
    + Suggestion(program, types[0])
  }

  /** The unknown-type message opens with its heading and lists every
      type on the board right after it. */
  lemma UnknownMessageLayout(program: string, types: seq<ContentType>)
    requires |types| > 0
    ensures var m := UnknownMessage(program, types);
      var start := 23 + |Plural(|types|)|;
      && |m| >= start + |BulletList(types)|
      && m[..21] == "\nUnknown content type"
      && m[start..start + |BulletList(types)|] == BulletList(types)
  {
    var head := "\nUnknown content type" + Plural(|types|) + ":\n";
    var list := BulletList(types);
    var tail := "\n" + "Call `" + program + " clip -t TYPE`\n"
      + "with the type of content you want to get, e.g.:\n"
      + Suggestion(program, types[0]);
    assert UnknownMessage(program, types) == head + list + tail;
    Strings.SliceMiddle(head, list, tail);
    assert (head + list + tail)[..21] == head[..21];
  }

  /** The unknown-type message closes with the suggested command. */
  lemma UnknownMessageEnding(program: string, types: seq<ContentType>)
    requires |types| > 0
    ensures var m := UnknownMessage(program, types);
      var sug := Suggestion(program, types[0]);
      |sug| <= |m| && m[|m| - |sug|..] == sug
  {
    var sug := Suggestion(program, types[0]);
    var rest := "\nUnknown content type" + Plural(|types|) + ":\n"
      + BulletList(types) + "\n"
      + "Call `" + program + " clip -t TYPE`\n"
      + "with the type of content you want to get, e.g.:\n";
    assert UnknownMessage(program, types) == rest + sug;
    assert (rest + sug)[|rest + sug| - |sug|..] == sug;
  }

  /** The last line of the unknown-type message: the command that would
      read the first listed type. */
  function Suggestion(program: string, t: ContentType): string
  {
    program + " clip -t " + t + "\n"
  }

  /** The type `clip` asks for: the `-t` option when given, else the
      copy's default. */
  function ClipType(v: Variant, option: Option<ContentType>): (r: Option<ContentType>)
    ensures option.Some? ==> r == option
    ensures option.None? ==> r == v.clipDefault
  {
    if option.Some? then option else v.clipDefault
  }

  /** The `clip [-t TYPE]` command; `option` is `None` when `-t` is not
      given. Found content is quoted and followed by the type listing; an
      empty board gives "No content"; otherwise the unknown-type message
      lists the board's types. */
  function Clip(v: Variant, b: Board, option: Option<ContentType>): (out: string)
    ensures IsEmpty(b) ==> out == Echo("No content")
    ensures GetContent(b, ClipType(v, option)).Some? ==>
      out == Echo("clipboard contains: '" + GetContent(b, ClipType(v, option)).value + "'") + Echo(GetTypesStr(b))
    ensures GetContent(b, ClipType(v, option)).None? && !IsEmpty(b) ==>
      out == Echo(UnknownMessage(v.program, GetTypes(b)))
  {
    match Decide(b, ClipType(v, option))
    case Found(content) => Echo("clipboard contains: '" + content + "'") + Echo(GetTypesStr(b))
    case NoContent => Echo("No content")
    case UnknownType(types) => Echo(UnknownMessage(v.program, types))
  }

  // ---------------------------------------------------------------------
  // Properties of the commands

  /** `clear` empties the board, and `types` then has nothing to list. */
  lemma ClearThenTypes(v: Variant, b: Board)
    ensures TypesCommand(v, Clear(b)) == Echo(if v.typesFallback then EmptyTypesMessage else "")
  {
  }

  /** Unless it prints the fallback message, `types` prints a listing
      that reads back as the board's types in order. */
  lemma TypesLists(v: Variant, b: Board)
    requires SingleLine(GetTypes(b))
    ensures !(v.typesFallback && IsEmpty(b)) ==>
      var out := TypesCommand(v, b);
      ParseBulletList(out[..|out| - 1]) == Some(GetTypes(b))
  {
    if !(v.typesFallback && IsEmpty(b)) {
      var s := GetTypesStr(b);
      assert Echo(s)[..|Echo(s)| - 1] == s;
      ParseBulletListRoundTrip(GetTypes(b));
    }
  }

  /** With no `-t`, the package copy asks for `None` and the script copies
      for `PLAIN_TEXT_UTF8`; `get_content`'s `t or PLAIN_TEXT_UTF8` makes
      the two the same request, so the same branch is taken. */
  lemma DefaultsAgree(b: Board)
    ensures Decide(b, ClipType(PackageMain, None)) == Decide(b, ClipType(Script, None))
    ensures LookupType(ClipType(PackageMain, None)) == PLAIN_TEXT_UTF8
  {
  }

  /** Copies that differ only in the form of their default print the same
      for a `clip` without `-t`. */
  lemma DefaultOutputsAgree(v: Variant, w: Variant, b: Board)
    requires v.program == w.program
    requires v.clipDefault == None && w.clipDefault == Some(PLAIN_TEXT_UTF8)
    ensures Clip(v, b, None) == Clip(w, b, None)
  {
  }

  /** A board whose requested type holds the empty string is not reported
      as empty: `clip` lists its types instead. */
  lemma EmptyTextIsUnknown(b: Board, clipType: Option<ContentType>)
    requires DataFor(b, LookupType(clipType)) == Some(Text(""))
    ensures Decide(b, clipType) == UnknownType(GetTypes(b))
  {
  }

  /** The heading says "types" exactly when more than one type is listed:
      its 22nd character is the plural `s` or else the colon. */
  lemma PluralHeading(program: string, types: seq<ContentType>)
    requires |types| > 0
    ensures var m := UnknownMessage(program, types);
      |m| > 21 && (m[21] == 's' <==> |types| > 1) && (m[21] == ':' <==> |types| == 1)
  {
  }

  /** When `clip` reports an unknown type, its output ends with the
      command for the first type on the board. */
  lemma SuggestsFirstType(v: Variant, b: Board, option: Option<ContentType>)
    requires Decide(b, ClipType(v, option)).UnknownType?
    ensures var out := Clip(v, b, option);
      var sug := Suggestion(v.program, GetTypes(b)[0]) + "\n";
      |sug| <= |out| && out[|out| - |sug|..] == sug
  {
    var m := UnknownMessage(v.program, GetTypes(b));
    var sug := Suggestion(v.program, GetTypes(b)[0]);
    UnknownMessageEnding(v.program, GetTypes(b));
    assert Echo(m)[|Echo(m)| - |sug + "\n"|..] == m[|m| - |sug|..] + "\n";
  }

  /** Scenario: on an empty board `clip` prints "No content", whatever it
      is asked for. */
  lemma FreshBoardNoContent(v: Variant, option: Option<ContentType>)
    ensures Clip(v, Empty, option) == "No content\n"
  {
  }

  /** Scenario: after `set_content("Hello, World!")`, `clip` with no `-t`
      prints the text and lists the default type. */
  lemma HelloWorld(v: Variant, b: Board)
    requires v.clipDefault == None || v.clipDefault == Some(PLAIN_TEXT_UTF8)
    ensures Clip(v, SetContent(b, "Hello, World!", PLAIN_TEXT_UTF8), None)
      == Echo("clipboard contains: 'Hello, World!'") + Echo(Bullet(PLAIN_TEXT_UTF8))
  {
    var b' := SetContent(b, "Hello, World!", PLAIN_TEXT_UTF8);
    HelloFound(v, b);
    HelloPrinted(v, b');
  }

  /** The found branch for "Hello, World!" on a board listing only the
      default text type. */
  lemma HelloPrinted(v: Variant, b: Board)
    requires GetContent(b, ClipType(v, None)) == Some("Hello, World!")
    requires GetTypes(b) == [PLAIN_TEXT_UTF8]
    ensures Clip(v, b, None)
      == Echo("clipboard contains: 'Hello, World!'") + Echo(Bullet(PLAIN_TEXT_UTF8))
  {
    SingleTypeListing(b, PLAIN_TEXT_UTF8);
    assert "clipboard contains: '" + "Hello, World!" + "'" == "clipboard contains: 'Hello, World!'";
  }

  /** After `set_content("Hello, World!")` the default lookup finds the
      text, and the default type is the only one listed. */
  lemma HelloFound(v: Variant, b: Board)
    requires v.clipDefault == None || v.clipDefault == Some(PLAIN_TEXT_UTF8)
    ensures Decide(SetContent(b, "Hello, World!", PLAIN_TEXT_UTF8), ClipType(v, None)) == Found("Hello, World!")
    ensures GetContent(SetContent(b, "Hello, World!", PLAIN_TEXT_UTF8), ClipType(v, None)) == Some("Hello, World!")
    ensures GetTypes(SetContent(b, "Hello, World!", PLAIN_TEXT_UTF8)) == [PLAIN_TEXT_UTF8]
  {
    assert LookupType(ClipType(v, None)) == PLAIN_TEXT_UTF8;
  }

  /** A board holding the single type `x` is listed as one line. */
  lemma SingleTypeListing(b: Board, x: ContentType)
    requires GetTypes(b) == [x]
    ensures GetTypesStr(b) == Bullet(x)
  {
    assert BulletList([x]) == Bullet(x) + BulletList([]);
  }

  /** Scenario: a board holding only type `x`, asked for another type,
      lists `x` alone under the singular heading and suggests asking for
      `x`. */
  lemma OtherTypeRequested(v: Variant, b: Board, x: ContentType, c: string, option: ContentType)
    requires LookupType(ClipType(v, Some(option))) != x
    ensures Decide(SetContent(b, c, x), ClipType(v, Some(option))) == UnknownType([x])
    ensures Clip(v, SetContent(b, c, x), Some(option)) == Echo(UnknownMessage(v.program, [x]))
  {
    var b' := SetContent(b, c, x);
    assert GetContent(b', Some(option)) == None;
    assert GetTypes(b') == [x];
  }

  /** The message for a single type `x` in full. */
  lemma SingleTypeMessage(program: string, x: ContentType)
    ensures UnknownMessage(program, [x])
      == "\nUnknown content type:\n- " + x + "\n\nCall `" + program + " clip -t TYPE`\n"
         + "with the type of content you want to get, e.g.:\n" + program + " clip -t " + x + "\n"
  {
    assert BulletList([x]) == Bullet(x) + BulletList([]);
  }
}

=== FILE: clipboard_state.dfy ===
/** The test-suite helpers `save_clipboard_state` and
    `resurrect_clipboard_state` (tests/test_pasteboard2.py, repeated in
    pasteboard2.py), with which the session fixture hands the user back the
    clipboard the tests found. */
module ClipboardState {
  import opened Wrappers
  import opened Pasteboard

  /** A Python dict `{typ: data}`: its keys in insertion order and the
      mapping. */
  datatype Saved = Saved(order: seq<ContentType>, data: map<ContentType, Data>)

  /** A dict's insertion order lists each key once, and only its keys. */
  ghost predicate WellFormed(st: Saved)
  {
    && (forall i, j :: 0 <= i < j < |st.order| ==> st.order[i] != st.order[j])
    && (forall t :: t in st.data <==> t in st.order)
  }

  /** `save_clipboard_state()`: one entry per type on the board, holding
      that type's data, in board order. */
  function Save(b: Board): (st: Saved)
    requires Valid(b)
    ensures WellFormed(st)
    ensures st.order == Types(b)
    ensures forall t :: t in st.data <==> DataFor(b, t).Some?
    ensures forall t :: t in st.data ==> DataFor(b, t) == Some(st.data[t])
  {
    Saved(Types(b), map t | t in Types(b) :: DataFor(b, t).value)
  }

  /** `resurrect_clipboard_state(st)`: clears the board, then writes each
      saved entry back in insertion order. */
  method Resurrect(b: Board, st: Saved) returns (r: Board)
    requires WellFormed(st)
    ensures Valid(r)
    ensures Types(r) == st.order
    ensures forall t :: DataFor(r, t) == (if t in st.data then Some(st.data[t]) else None)
  {
    r := ClearContents(b);
    var i := 0;
    while i < |st.order|
      invariant 0 <= i <= |st.order|
      invariant Valid(r)
      invariant Types(r) == st.order[..i]
      invariant forall t :: DataFor(r, t) == (if t in st.order[..i] then Some(st.data[t]) else None)
    {
      var t := st.order[i];
      assert t !in st.order[..i];
      assert st.order[..i + 1] == st.order[..i] + [t];
      r := SetData(r, st.data[t], t);
      i := i + 1;
    }
    assert st.order[..i] == st.order;
  }

  /** The session fixture: whatever the tests left on the board, restoring
      the state saved at the start gives back the very board the tests
      found. */
  method SaveAndRestore(before: Board, after: Board) returns (r: Board)
    requires Valid(before)
    ensures r == before
  {
    var st := Save(before);
    r := Resurrect(after, st);
    BoardExt(r, before);
  }
}

=== FILE: exportable.dfy ===
/** The `Exportable` decorator of pasteboard2/pasteboard2.py, which builds
    the module's `__all__` as definitions are decorated. */
module Exportable {
  import opened Wrappers
  import Accessor

  /** What gets decorated: a function, known by its `__name__`, or a
      constant value, which has no name of its own. */
  datatype Obj = Callable(name: string) | Value(text: string)

  /** The decorator instance; `exportedNames` grows by one per call. */
  datatype Registry = Registry(exportedNames: seq<string>)

  /** `Exportable()`. */
  const Fresh: Registry := Registry([])

  /** The registry after a call, and what the call returned or raised. */
  datatype Call = Call(registry: Registry, result: Result<Obj>)

  /** `exportable(obj, name)`. */
  function Register(reg: Registry, obj: Obj, name: Option<string>): (c: Call)
    ensures c.result.Success? <==> obj.Callable? || name.Some?
    ensures c.result.Success? ==> c.result.value == obj
    ensures c.result.Success? ==>
      && |c.registry.exportedNames| == |reg.exportedNames| + 1
      && c.registry.exportedNames[..|reg.exportedNames|] == reg.exportedNames
    ensures c.result.Success? && obj.Callable? ==> c.registry.exportedNames[|reg.exportedNames|] == obj.name
    ensures c.result.Success? && obj.Value? ==> c.registry.exportedNames[|reg.exportedNames|] == name.value
    ensures c.result.Failure? ==> c.registry == reg && c.result.error == ValueError
  {
    if obj.Callable? then
      Call(Registry(reg.exportedNames + [obj.name]), Success(obj))
    else if name.None? then
      Call(reg, Failure(ValueError))
    else
      Call(Registry(reg.exportedNames + [name.value]), Success(obj))
  }

  /** One decorated definition of the module, in source order. */
  datatype Decl = Decl(obj: Obj, name: Option<string>)

  /** Decorating the definitions one after another; the first `ValueError`
      aborts the module's import. */
  function RegisterAll(reg: Registry, decls: seq<Decl>): (r: Result<Registry>)
    ensures r.Success? <==> Nameable(decls)
    ensures r.Failure? ==> r.error == ValueError
    ensures r.Success? ==>
      && |r.value.exportedNames| == |reg.exportedNames| + |decls|
      && r.value.exportedNames[..|reg.exportedNames|] == reg.exportedNames
    decreases |decls|
  {
    if decls == [] then Success(reg)
    else
      var c := Register(reg, decls[0].obj, decls[0].name);
      if c.result.Failure? then Failure(c.result.error)
      else RegisterAll(c.registry, decls[1..])
  }

  /** A definition the decorator can name: a callable, or a value with a
      name given. */
  predicate HasName(d: Decl)
  {
    d.obj.Callable? || d.name.Some?
  }

  /** The name a definition is exported under. */
  function ExportName(d: Decl): string
    requires HasName(d)
  {
    if d.obj.Callable? then d.obj.name else d.name.value
  }

  predicate Nameable(decls: seq<Decl>)
    decreases |decls|
  {
    decls == [] || (HasName(decls[0]) && Nameable(decls[1..]))
  }

  function ExportNames(decls: seq<Decl>): seq<string>
    requires Nameable(decls)
    decreases |decls|
  {
    if decls == [] then [] else [ExportName(decls[0])] + ExportNames(decls[1..])
  }

  /** Decorating nameable definitions appends their names in order. */
  lemma {:induction false} RegisterAllAppends(reg: Registry, decls: seq<Decl>)
    requires Nameable(decls)
    ensures RegisterAll(reg, decls) == Success(Registry(reg.exportedNames + ExportNames(decls)))
    decreases |decls|
  {
    if decls != [] {
      var next := Registry(reg.exportedNames + [ExportName(decls[0])]);
      assert Register(reg, decls[0].obj, decls[0].name) == Call(next, Success(decls[0].obj));
      RegisterAllAppends(next, decls[1..]);
      assert reg.exportedNames + ExportNames(decls)
        == next.exportedNames + ExportNames(decls[1..]);
    } else {
      assert reg.exportedNames + ExportNames(decls) == reg.exportedNames;
    }
  }

  /** A definition that cannot be named stops the import at that point. */
  lemma {:induction false} RegisterAllFails(reg: Registry, decls: seq<Decl>)
    requires !Nameable(decls)
    ensures RegisterAll(reg, decls) == Failure(ValueError)
    decreases |decls|
  {
    if HasName(decls[0]) {
      var next := Registry(reg.exportedNames + [ExportName(decls[0])]);
      assert Register(reg, decls[0].obj, decls[0].name) == Call(next, Success(decls[0].obj));
      RegisterAllFails(next, decls[1..]);
    }
  }

  /** The decorated definitions of pasteboard2/pasteboard2.py, in order. */
  const ModuleDecls: seq<Decl> := [
    Decl(Value(Accessor.PLAIN_TEXT_UTF8), Some("PLAIN_TEXT_UTF8")),
    Decl(Callable("set_content"), None),
    Decl(Callable("get_pasteboard"), None),
    Decl(Callable("clear_pb"), None),
    Decl(Callable("is_empty"), None),
    Decl(Callable("get_types"), None),
    Decl(Callable("get_types_str"), None),
    Decl(Callable("get_content"), None)
  ]

  /** `__all__` after the module body ran: the eight names in declaration
      order, from a registry that started empty. */
  lemma ModuleAll()
    ensures RegisterAll(Fresh, ModuleDecls) == Success(Registry([
      "PLAIN_TEXT_UTF8", "set_content", "get_pasteboard", "clear_pb",
      "is_empty", "get_types", "get_types_str", "get_content"]))
  {
    var ds := ModuleDecls;
    assert Nameable(ds[8..]);
    assert Nameable(ds[7..]) by { assert ds[7..][1..] == ds[8..]; }
    assert Nameable(ds[6..]) by { assert ds[6..][1..] == ds[7..]; }
    assert Nameable(ds[5..]) by { assert ds[5..][1..] == ds[6..]; }
    assert Nameable(ds[4..]) by { assert ds[4..][1..] == ds[5..]; }
    assert Nameable(ds[3..]) by { assert ds[3..][1..] == ds[4..]; }
    assert Nameable(ds[2..]) by { assert ds[2..][1..] == ds[3..]; }
    assert Nameable(ds[1..]) by { assert ds[1..][1..] == ds[2..]; }
    ModuleExportNames();
    RegisterAllAppends(Fresh, ds);
  }

  /** The names the module's definitions export, in declaration order. */
  lemma ModuleExportNames()
    requires Nameable(ModuleDecls)
    ensures Fresh.exportedNames + ExportNames(ModuleDecls) == [
      "PLAIN_TEXT_UTF8", "set_content", "get_pasteboard", "clear_pb",
      "is_empty", "get_types", "get_types_str", "get_content"]
  {
    var ds := ModuleDecls;
    assert ExportNames(ds[8..]) == [];
    assert ExportNames(ds[7..]) == ["get_content"] by { assert ds[7..][1..] == ds[8..]; }
    assert ExportNames(ds[6..]) == ["get_types_str"] + ExportNames(ds[7..]) by { assert ds[6..][1..] == ds[7..]; }
    assert ExportNames(ds[5..]) == ["get_types"] + ExportNames(ds[6..]) by { assert ds[5..][1..] == ds[6..]; }
    assert ExportNames(ds[4..]) == ["is_empty"] + ExportNames(ds[5..]) by { assert ds[4..][1..] == ds[5..]; }
    assert ExportNames(ds[3..]) == ["clear_pb"] + ExportNames(ds[4..]) by { assert ds[3..][1..] == ds[4..]; }
    assert ExportNames(ds[2..]) == ["get_pasteboard"] + ExportNames(ds[3..]) by { assert ds[2..][1..] == ds[3..]; }
    assert ExportNames(ds[1..]) == ["set_content"] + ExportNames(ds[2..]) by { assert ds[1..][1..] == ds[2..]; }
    assert ExportNames(ds) == ["PLAIN_TEXT_UTF8"] + ExportNames(ds[1..]);
    assert Fresh.exportedNames + ExportNames(ds) == [
      "PLAIN_TEXT_UTF8", "set_content", "get_pasteboard", "clear_pb",
      "is_empty", "get_types", "get_types_str", "get_content"];
  }

  /** The decorator hands back the very `PLAIN_TEXT_UTF8` the accessor uses. */
  lemma PlainTextConstant()
    ensures Register(Fresh, Value(Accessor.PLAIN_TEXT_UTF8), Some("PLAIN_TEXT_UTF8")).result
      == Success(Value(Accessor.PLAIN_TEXT_UTF8))
  {
  }
}

=== FILE: handle_cache.dfy ===
/** `get_pasteboard()`: the lazily created, process-wide pasteboard handle.
    The call to `NSPasteboard.generalPasteboard()` is foreign, so the handle
    it would return is a parameter of each call. */
module HandleCache {
  import opened Wrappers

  /** An opaque reference to the system pasteboard. */
  datatype Handle = Handle(id: nat)

  /** The `cache_` attribute of `get_pasteboard`: absent until the first call. */
  datatype Cache = Cache(cached: Option<Handle>)

  /** The handle a call returns and the cache after it. */
  datatype Fetched = Fetched(handle: Handle, cache: Cache)

  /** `get_pasteboard()`; `general` is what `generalPasteboard()` would
      return if it were called now. */
  function GetPasteboard(c: Cache, general: Handle): (r: Fetched)
    ensures r.cache.cached == Some(r.handle)
    ensures c.cached.Some? ==> r.cache == c && r.handle == c.cached.value
    ensures c.cached.None? ==> r.handle == general
  {
    if c.cached.None? then Fetched(general, Cache(Some(general))) else Fetched(c.cached.value, c)
  }

  /** The handles returned by successive calls, the `i`-th call seeing
      `generals[i]` from the foreign constructor. */
  function Calls(c: Cache, generals: seq<Handle>): (hs: seq<Handle>)
    ensures |hs| == |generals|
    decreases |generals|
  {
    if generals == [] then []
    else
      var f := GetPasteboard(c, generals[0]);
      [f.handle] + Calls(f.cache, generals[1..])
  }

  /** The cache after successive calls. */
  function CacheAfter(c: Cache, generals: seq<Handle>): Cache
    decreases |generals|
  {
    if generals == [] then c
    else CacheAfter(GetPasteboard(c, generals[0]).cache, generals[1..])
  }

  /** The handle every call of a run returns: the cached one, or else the
      one created by the first call. */
  function FirstHandle(c: Cache, generals: seq<Handle>): Handle
    requires c.cached.Some? || generals != []
  {
    if c.cached.Some? then c.cached.value else generals[0]
  }

  /** Memoisation: however many times it is called, and whatever the
      foreign constructor would return, `get_pasteboard` hands out one
      handle, and the cache holds that handle from the first call on. */
  lemma {:induction false} CallsMemoised(c: Cache, generals: seq<Handle>)
    requires c.cached.Some? || generals != []
    ensures forall i :: 0 <= i < |generals| ==> Calls(c, generals)[i] == FirstHandle(c, generals)
    ensures CacheAfter(c, generals) == Cache(Some(FirstHandle(c, generals)))
    decreases |generals|
  {
    if generals != [] {
      var f := GetPasteboard(c, generals[0]);
      CallsMemoised(f.cache, generals[1..]);
      assert FirstHandle(f.cache, generals[1..]) == FirstHandle(c, generals);
    }
  }

  /** After the first call, a further call leaves the cache as it was. */
  lemma CachedCallUnchanged(c: Cache, g1: Handle, g2: Handle)
    ensures GetPasteboard(GetPasteboard(c, g1).cache, g2) == GetPasteboard(c, g1)
  {
  }
}

=== FILE: mkdist.dfy ===
/** `bump_version` of mkdist.py: parse `major.minor.patch`, raise the field
    the flags select (major before minor before patch), reset the fields
    below it as items 7 and 8 of Semantic Versioning 2.0.0 require, and
    print the result. */
module Mkdist {
  import opened Wrappers
  import Strings

  datatype Version = Version(major: nat, minor: nat, patch: nat)

  // ---------------------------------------------------------------------
  // Decimal numerals

  predicate IsDigit(c: char)
  {
    '0' <= c <= '9'
  }

  predicate AllDigits(s: string)
  {
    forall i :: 0 <= i < |s| ==> IsDigit(s[i])
  }

  function DigitChar(d: nat): (c: char)
    requires d < 10
    ensures IsDigit(c)
  {
    ('0' as int + d) as char
  }

  /** The value of a digit string, most significant digit first; leading
      zeros are allowed, as Python's `int("007")` allows them. */
  function DigitsValue(s: string): nat
    requires AllDigits(s)
  {
    if s == [] then 0
    else DigitsValue(s[..|s| - 1]) * 10 + (s[|s| - 1] as int - '0' as int)
  }

  /** A numeral as `str` prints it: non-empty digits without a leading
      zero, unless the number is zero itself. */
  predicate Canonical(s: string)
  {
    |s| > 0 && AllDigits(s) && (|s| == 1 || s[0] != '0')
  }

  /** `str(n)`: the shortest numeral of `n`. */
  function Decimal(n: nat): (s: string)
    ensures Canonical(s)
    ensures n > 0 ==> s[0] != '0'
    ensures DigitsValue(s) == n
  {
    if n < 10 then [DigitChar(n)]
    else
      var s := Decimal(n / 10) + [DigitChar(n % 10)];
      assert s[..|s| - 1] == Decimal(n / 10);
      s
  }

  /** A numeral that starts with a non-zero digit has a non-zero value. */
  lemma {:induction false} LeadingDigitPositive(s: string)
    requires |s| > 0 && AllDigits(s) && s[0] != '0'
    ensures DigitsValue(s) > 0
    decreases |s|
  {
    if |s| > 1 {
      LeadingDigitPositive(s[..|s| - 1]);
    }
  }

  /** `str(n)` is the only canonical numeral of `n`. */
  lemma {:induction false} DecimalUnique(s: string)
    requires Canonical(s)
    ensures s == Decimal(DigitsValue(s))
    decreases |s|
  {
    var n := DigitsValue(s);
    var last := s[|s| - 1];
    if |s| == 1 {
      assert s == [last] && s[..|s| - 1] == [];
      assert DigitsValue(s) == DigitsValue([]) * 10 + (last as int - '0' as int);
      assert n == last as int - '0' as int;
      assert DigitChar(n) == last;
    } else {
      var init := s[..|s| - 1];
      assert init[0] == s[0];
      LeadingDigitPositive(init);
      DecimalUnique(init);
      var d := last as int - '0' as int;
      assert n == DigitsValue(init) * 10 + d && 0 <= d < 10;
      assert n / 10 == DigitsValue(init) && n % 10 == d;
      assert DigitChar(d) == last;
      assert s == init + [last];
    }
  }

  /** `int(field)`, restricted to non-empty strings of decimal digits. */
  function ParseNat(s: string): (r: Option<nat>)
    ensures r.Some? <==> |s| > 0 && AllDigits(s)
    ensures r.Some? ==> r.value == DigitsValue(s)
  {
    if |s| > 0 && AllDigits(s) then Some(DigitsValue(s)) else None
  }

  /** `int(str(n)) == n`. */
  lemma ParseNatDecimal(n: nat)
    ensures ParseNat(Decimal(n)) == Some(n)
  {
  }

  // ---------------------------------------------------------------------
  // Version strings

  /** `major, minor, patch = map(int, version_str.split("."))`: a string
      with other than two dots fails to unpack, and a field that is not a
      number fails to convert; both raise `ValueError`. */
  function ParseVersion(s: string): (r: Result<Version>)
    ensures r.Success? <==>
      var fields := Strings.Split(s, '.');
      |fields| == 3 && ParseNat(fields[0]).Some? && ParseNat(fields[1]).Some? && ParseNat(fields[2]).Some?
    ensures r.Success? ==>
      var fields := Strings.Split(s, '.');
      r.value == Version(DigitsValue(fields[0]), DigitsValue(fields[1]), DigitsValue(fields[2]))
    ensures r.Failure? ==> r.error == ValueError
  {
    var fields := Strings.Split(s, '.');
    if |fields| != 3 then Failure(ValueError)
    else match (ParseNat(fields[0]), ParseNat(fields[1]), ParseNat(fields[2]))
      case (Some(major), Some(minor), Some(patch)) => Success(Version(major, minor, patch))
      case _ => Failure(ValueError)
  }

  /** `f"{major}.{minor}.{patch}"`: three canonical numerals, for the
      three fields in order, separated by two dots. */
  function Format(v: Version): (s: string)
    ensures var fields := Strings.Split(s, '.');
      && |fields| == 3
      && Canonical(fields[0]) && DigitsValue(fields[0]) == v.major
      && Canonical(fields[1]) && DigitsValue(fields[1]) == v.minor
      && Canonical(fields[2]) && DigitsValue(fields[2]) == v.patch
  {
    var parts := [Decimal(v.major), Decimal(v.minor), Decimal(v.patch)];
    DecimalHasNoDot(v.major);
    DecimalHasNoDot(v.minor);
    DecimalHasNoDot(v.patch);
    Strings.SplitJoin(parts, '.');
    Strings.Join(parts, '.')
  }

  /** The printed form is the only string of three canonical numerals
      naming the version: `"1.2.04"` and `"01.2.4"` are not it. */
  lemma FormatUnique(v: Version, s: string)
    requires var fields := Strings.Split(s, '.');
      && |fields| == 3
      && Canonical(fields[0]) && DigitsValue(fields[0]) == v.major
      && Canonical(fields[1]) && DigitsValue(fields[1]) == v.minor
      && Canonical(fields[2]) && DigitsValue(fields[2]) == v.patch
    ensures s == Format(v)
  {
    var fields := Strings.Split(s, '.');
    Strings.JoinSplit(s, '.');
    DecimalUnique(fields[0]);
    DecimalUnique(fields[1]);
    DecimalUnique(fields[2]);
    assert fields == [Decimal(v.major), Decimal(v.minor), Decimal(v.patch)];
  }

  /** A numeral holds no dot. */
  lemma DecimalHasNoDot(n: nat)
    ensures '.' !in Decimal(n)
  {
  }

  /** Printing a version and parsing it back gives the same version. */
  lemma FormatRoundTrip(v: Version)
    ensures ParseVersion(Format(v)) == Success(v)
  {
  }

  // ---------------------------------------------------------------------
  // Bump flags

  function Pow2(k: nat): (p: nat)
    ensures p > 0
  {
    if k == 0 then 1 else 2 * Pow2(k - 1)
  }

  /** Python's `flags & 2**k != 0`. Python's `&` treats a negative int as
      an infinite two's-complement bit string, whose bit `k` is the parity
      of `flags // 2**k`; with a positive divisor Dafny's `/` and `%` are
      Python's floor division and modulo, so this is exact for every int. */
  predicate Bit(flags: int, k: nat)
  {
    (flags / Pow2(k)) % 2 == 1
  }

  /** The two's-complement reading of negative flags: `~f == -f - 1` has
      every bit of `f` flipped, so for instance `-5 & 4 == 0` while
      `-4 & 4 == 4`. */
  lemma BitComplement(flags: int, k: nat)
    ensures Bit(-flags - 1, k) <==> !Bit(flags, k)
  {
    ComplementDiv(flags, Pow2(k));
  }

  /** Negative flags select by their two's-complement bits: `-5` (`...1011`)
      clears bit 4, `-4` (`...1100`) sets it, and `-8` (`...1000`) selects
      nothing. */
  lemma NegativeFlags()
    ensures !Bit(-5, 2) && Bit(-4, 2)
    ensures BumpLevel(-8) == None
  {
    BitComplement(4, 2);
    BitComplement(3, 2);
    BitComplement(7, 2);
    BitComplement(7, 1);
    BitComplement(7, 0);
  }

  /** Floor division commutes with complement: `~f // p == ~(f // p)`. */
  lemma ComplementDiv(f: int, p: int)
    requires p > 0
    ensures (-f - 1) / p == -(f / p) - 1
  {
    var q := f / p;
    var r := f % p;
    assert -f - 1 == p * (-q - 1) + (p - r - 1);
    DivUnique(-f - 1, p, -q - 1, p - r - 1);
  }

  /** The quotient is the only multiplier leaving a remainder in `[0, p)`. */
  lemma DivUnique(n: int, p: int, q: int, r: int)
    requires p > 0 && 0 <= r < p && n == p * q + r
    ensures n / p == q
  {
    var d := n / p - q;
    assert p * d == r - n % p;
  }

  /** The field a bump raises. */
  datatype Level = Major | Minor | Patch

  /** The `if`/`elif` chain: bit 4 (value 4) wins over bit 2, bit 2 over
      bit 1; no selected bit means no bump. */
  function BumpLevel(flags: int): (l: Option<Level>)
    ensures l == Some(Major) <==> Bit(flags, 2)
    ensures l == Some(Minor) <==> !Bit(flags, 2) && Bit(flags, 1)
    ensures l == Some(Patch) <==> !Bit(flags, 2) && !Bit(flags, 1) && Bit(flags, 0)
    ensures l == None <==> !Bit(flags, 2) && !Bit(flags, 1) && !Bit(flags, 0)
  {
    if Bit(flags, 2) then Some(Major)
    else if Bit(flags, 1) then Some(Minor)
    else if Bit(flags, 0) then Some(Patch)
    else None
  }

  /** The version with every field below `l` set to zero. */
  function Truncate(v: Version, l: Level): (w: Version)
  {
    match l
    case Major => Version(v.major, 0, 0)
    case Minor => Version(v.major, v.minor, 0)
    case Patch => v
  }

  /** Lexicographic precedence on `(major, minor, patch)`. */
  predicate Below(a: Version, b: Version)
  {
    || a.major < b.major
    || (a.major == b.major && a.minor < b.minor)
    || (a.major == b.major && a.minor == b.minor && a.patch < b.patch)
  }

  /** The arithmetic of the bump: the selected field goes up by one and
      the fields below it restart at zero. */
  function Bump(v: Version, flags: int): (r: Version)
    ensures BumpLevel(flags).None? ==> r == v
    ensures BumpLevel(flags).Some? ==>
      var l := BumpLevel(flags).value;
      && Truncate(r, l) == r
      && Below(Truncate(v, l), r)
      && (l == Major ==> r.major == v.major + 1)
      && (l == Minor ==> r.major == v.major && r.minor == v.minor + 1)
      && (l == Patch ==> r.major == v.major && r.minor == v.minor && r.patch == v.patch + 1)
  {
    match BumpLevel(flags)
    case None => v
    case Some(Major) => Version(v.major + 1, 0, 0)
    case Some(Minor) => Version(v.major, v.minor + 1, 0)
    case Some(Patch) => Version(v.major, v.minor, v.patch + 1)
  }

  /** `bump_version(version_str, bump_flags)`. */
  function BumpVersion(s: string, flags: int): (r: Result<string>)
    ensures r.Success? <==> ParseVersion(s).Success?
    ensures r.Failure? ==> r.error == ValueError
    ensures r.Success? ==> r.value == Format(Bump(ParseVersion(s).value, flags))
    ensures r.Success? ==> ParseVersion(r.value) == Success(Bump(ParseVersion(s).value, flags))
  {
    match ParseVersion(s)
    case Failure(e) => Failure(e)
    case Success(v) => FormatRoundTrip(Bump(v, flags)); Success(Format(Bump(v, flags)))
  }

  // ---------------------------------------------------------------------
  // Properties of the bump

  /** The default `bump_flags=1` raises the patch number. */
  lemma DefaultBumpsPatch(v: Version)
    ensures Bump(v, 1) == Version(v.major, v.minor, v.patch + 1)
  {
    assert Bit(1, 0) && !Bit(1, 1) && !Bit(1, 2);
  }

  /** With bit 4 set the major number is raised and the others reset,
      whatever else is set. */
  lemma MajorWins(v: Version, flags: int)
    requires Bit(flags, 2)
    ensures Bump(v, flags) == Version(v.major + 1, 0, 0)
  {
  }

  /** With bit 2 set and bit 4 clear the minor number is raised and the
      patch reset. */
  lemma MinorOverPatch(v: Version, flags: int)
    requires Bit(flags, 1) && !Bit(flags, 2)
    ensures Bump(v, flags) == Version(v.major, v.minor + 1, 0)
  {
  }

  /** Flags with none of the three bits (0 or 8, say) leave the version
      as it was; a negative flag, being all ones above its lowest bits in
      two's complement, bumps the major number. */
  lemma UnselectedFlags(v: Version)
    ensures Bump(v, 0) == v && Bump(v, 8) == v
    ensures Bump(v, -1) == Version(v.major + 1, 0, 0)
  {
    assert !Bit(8, 0) && !Bit(8, 1) && !Bit(8, 2);
    assert Bit(-1, 2);
  }

  /** A bump moves strictly up in precedence exactly when some field is
      selected, and is the identity otherwise. */
  lemma BumpIncreases(v: Version, flags: int)
    ensures Below(v, Bump(v, flags)) <==> BumpLevel(flags).Some?
    ensures BumpLevel(flags).None? ==> Bump(v, flags) == v
  {
  }

  /** The bumped version is the least version whose fields down to the
      selected one exceed `v`'s: the selected field goes up by exactly one
      and every field below it restarts at zero. */
  lemma BumpIsLeast(v: Version, flags: int, w: Version)
    requires BumpLevel(flags).Some?
    requires Below(Truncate(v, BumpLevel(flags).value), Truncate(w, BumpLevel(flags).value))
    ensures Truncate(Bump(v, flags), BumpLevel(flags).value) == Bump(v, flags)
    ensures Below(Truncate(v, BumpLevel(flags).value), Bump(v, flags))
    ensures Bump(v, flags) == w || Below(Bump(v, flags), w)
  {
  }

  /** "1.2.3" parses to `(1, 2, 3)`; "1.2" has too few fields. */
  lemma ParseExamples()
    ensures ParseVersion("1.2.3") == Success(Version(1, 2, 3))
    ensures ParseVersion("1.2").Failure?
  {
    ParseThreeFields();
    ParseTwoFields();
  }

  /** "1.2.3" is the printing of `(1, 2, 3)`, so it parses back to it. */
  lemma ParseThreeFields()
    ensures ParseVersion("1.2.3") == Success(Version(1, 2, 3))
  {
    FormatDigits(1, 2, 3);
    assert [DigitChar(1), '.', DigitChar(2), '.', DigitChar(3)] == "1.2.3";
    FormatRoundTrip(Version(1, 2, 3));
  }

  /** A version of single digits prints as five characters. */
  lemma FormatDigits(a: nat, b: nat, c: nat)
    requires a < 10 && b < 10 && c < 10
    ensures Format(Version(a, b, c)) == [DigitChar(a), '.', DigitChar(b), '.', DigitChar(c)]
  {
    var parts := [[DigitChar(a)], [DigitChar(b)], [DigitChar(c)]];
    assert Format(Version(a, b, c)) == Strings.Join(parts, '.');
    assert Strings.Join(parts[2..], '.') == [DigitChar(c)];
  }

  /** "1.2" splits into two fields, so parsing it raises. */
  lemma ParseTwoFields()
    ensures ParseVersion("1.2").Failure?
  {
    assert "1.2" == Strings.Join(["1", "2"], '.');
    Strings.SplitJoin(["1", "2"], '.');
  }

  /** `(1, 2, 4)` prints as "1.2.4". */
  lemma FormatExample()
    ensures Format(Version(1, 2, 4)) == "1.2.4"
  {
    FormatDigits(1, 2, 4);
    assert [DigitChar(1), '.', DigitChar(2), '.', DigitChar(4)] == "1.2.4";
  }

  /** "1.2.3" with the default flags becomes "1.2.4"; "1.2" raises. */
  lemma BumpVersionExample()
    ensures BumpVersion("1.2.3", 1) == Success("1.2.4")
    ensures BumpVersion("1.2", 1) == Failure(ValueError)
  {
    ParseExamples();
    DefaultBumpsPatch(Version(1, 2, 3));
    FormatExample();
  }
}

=== FILE: strings.dfy ===
/** Character-level helpers shared by the type listing and the version
    string: first occurrence, occurrence count and Python's `str.split`. */
module Strings {
  import opened Wrappers

  /** Position of the first `c` in `s`. */
  function IndexOf(s: string, c: char): (r: Option<nat>)
    ensures r.None? <==> c !in s
    ensures r.Some? ==> r.value < |s| && s[r.value] == c && c !in s[..r.value]
  {
    if s == [] then None
    else if s[0] == c then Some(0)
    else match IndexOf(s[1..], c)
      case None => None
      case Some(i) => assert s[..i + 1] == [s[0]] + s[1..][..i]; Some(i + 1)
  }

  /** When `x` holds no `c`, the first `c` of `x + [c] + rest` is the one
      right after `x`. */
  lemma IndexOfAfter(x: string, c: char, rest: string)
    requires c !in x
    ensures IndexOf(x + [c] + rest, c) == Some(|x|)
  {
    var s := x + [c] + rest;
    assert s[|x|] == c;
  }

  /** Number of occurrences of `c` in `s`. */
  function Count(s: string, c: char): (n: nat)
    ensures n <= |s|
    ensures n == 0 <==> c !in s
  {
    if s == [] then 0
    else (if s[0] == c then 1 else 0) + Count(s[1..], c)
  }

  /** Occurrences in a concatenation add up. */
  lemma {:induction false} CountAppend(a: string, b: string, c: char)
    ensures Count(a + b, c) == Count(a, c) + Count(b, c)
    decreases |a|
  {
    if a == [] {
      assert a + b == b;
    } else {
      assert (a + b)[1..] == a[1..] + b;
      CountAppend(a[1..], b, c);
    }
  }

  /** Python's `s.split(c)` for a one-character separator: the pieces
      between consecutive separators, so `n` separators give `n + 1`
      pieces. */
  function Split(s: string, c: char): (parts: seq<string>)
    ensures |parts| == Count(s, c) + 1
    ensures forall i :: 0 <= i < |parts| ==> c !in parts[i]
    decreases |s|
  {
    match IndexOf(s, c)
    case None => [s]
    case Some(i) =>
      var rest := Split(s[i + 1..], c);
      assert s == s[..i] + [c] + s[i + 1..];
      CountAppend(s[..i] + [c], s[i + 1..], c);
      CountAppend(s[..i], [c], c);
      [s[..i]] + rest
  }

  /** The separators put back: `c.join(parts)`. */
  function Join(parts: seq<string>, c: char): (s: string)
    requires |parts| > 0
  {
    if |parts| == 1 then parts[0] else parts[0] + [c] + Join(parts[1..], c)
  }

  /** A leading piece free of the separator splits off whole. */
  lemma SplitCons(x: string, c: char, rest: string)
    requires c !in x
    ensures Split(x + [c] + rest, c) == [x] + Split(rest, c)
  {
    IndexOfAfter(x, c, rest);
    var s := x + [c] + rest;
    assert s[..|x|] == x;
    assert s[|x| + 1..] == rest;
  }

  /** Splitting undoes joining pieces free of the separator. */
  lemma {:induction false} SplitJoin(parts: seq<string>, c: char)
    requires |parts| > 0
    requires forall i :: 0 <= i < |parts| ==> c !in parts[i]
    ensures Split(Join(parts, c), c) == parts
    decreases |parts|
  {
    if |parts| > 1 {
      SplitJoin(parts[1..], c);
      SplitCons(parts[0], c, Join(parts[1..], c));
      assert parts == [parts[0]] + parts[1..];
    }
  }

  /** Joining undoes splitting: no character is lost or added. */
  lemma {:induction false} JoinSplit(s: string, c: char)
    ensures Join(Split(s, c), c) == s
    decreases |s|
  {
    match IndexOf(s, c)
    case None =>
    case Some(i) =>
      JoinSplit(s[i + 1..], c);
      var parts := Split(s, c);
      assert parts[1..] == Split(s[i + 1..], c);
      assert s == s[..i] + [c] + s[i + 1..];
  }

  /** The middle piece of a three-way concatenation is found where the
      first piece ends. */
  lemma SliceMiddle<T>(a: seq<T>, b: seq<T>, c: seq<T>)
    ensures (a + b + c)[|a|..|a| + |b|] == b
  {
  }
}

=== FILE: wrappers.dfy ===
/** Option and Result, the two failure-carrying datatypes the model uses in
    place of Python's `None` and raised exceptions. */
module Wrappers {

  /** A value that may be absent: Python's `str | None`. */
  datatype Option<+T> = None | Some(value: T)

  /** The outcome of an operation that may raise: `Failure` carries the
      name of the exception the source would raise. */
  datatype Result<+T> = Success(value: T) | Failure(error: string)

  /** The exception both the decorator and the version parser raise. */
  const ValueError: string := "ValueError"
}
